=== FILE: README.md ===
# ArrayDot in Dafny

A model of `Colorium\Tools\ArrayDot`, a dot-path accessor over nested PHP arrays.

A path such as `"user.address.city"` is split on every `.`. Each segment is then used as an
array offset, one level deeper each time. The class offers two kinds of operation:

- static operations on a caller's array: `has`, `get`, `pop`, `set`, `push` and `drop`;
- a wrapper object that holds one array and answers PHP's array-access protocol
  (`isset`, read, write, `unset`) and `count` by forwarding to those operations.

## How the model is laid out

- `php_keys.dfy` (module `PhpKeys`) covers what PHP does to a path before it touches an array:
  - `explode('.', …)` as `Explode`;
  - key normalisation: a segment that spells a 64-bit integer in canonical decimal is an
    integer key, and any other segment is a string key (`KeyOf`);
  - `PathKeys`: the keys a path addresses.
- `php_arrays.dfy` (module `PhpArrays`) covers PHP array values:
  - each array is an ordered list of entries plus PHP's hidden "next free integer key";
  - the single-offset operations `isset`, `$a[$k] = $x`, `unset`, `array_push` and a
    read-only `array_pop`;
  - `WF`: the shape every PHP array has.

  `array_push` appends under PHP's next free integer key, not under "largest integer key + 1":
  - the next free key starts at 0;
  - inserting an integer key `k` at or above it moves it to `k + 1`;
  - `unset` never lowers it;
  - when that key is already taken (only after PHP_INT_MAX was used), PHP 7 refuses the
    append with a warning and leaves the array unchanged.
- `dot_paths.dfy` (module `DotPaths`) holds the specification functions:
  - `Resolve`, `Lookup`, `Popped`, `SetAt`, `PushAt` and `DropAt` say what each walk computes on
    values;
  - the lemmas state what the walks promise: round trips, agreement between operations,
    frame conditions, idempotence and preservation of `WF`.
- `array_dot.dfy` (module `Tools`) holds class `ArrayDot`:
  - it has one mutable field, the wrapped array;
  - its instance methods update that field;
  - its static methods are the walks themselves, written as `while` loops over the path's
    keys and proved against the specification functions.

PHP arrays are values, so a parameter `array &$array` is modelled as an array passed in and the
updated array returned.

The write walks move a reference cursor (`$array = &$array[$key]`). The model splits this into
two loops:

- `WalkCreating`, or the prefix loop of `Drop`, goes down the path and records the arrays the
  cursor passes (the frames).
- `WriteBack` then assigns the changed inner array into each frame, from the innermost out.

The lemmas `SetAtPlug` and `PushAtPlug` prove that this two-loop form computes the same value
as the recursive specification.

Points where the model follows the code rather than the class's stated intent:

- `bind` takes `array &$input` but calls the by-value constructor (`$this->array = $input`). The
  wrapper therefore holds a copy, not an alias, and `Bind` returns a wrapper over an equal,
  independent value.
- `pop` takes its array by value. It never changes the caller's array, so `Pop` only returns
  the value that would be popped.
- Every existence test is `isset`, so an entry whose value is `null` counts as missing:
  - `has` and `drop` answer false for it;
  - `set` and `push` replace it with `[]` when they walk through it.

## Model

| member | source | states |
|---|---|---|
| PhpKeys.Explode | src/Colorium/Tools/ArrayDot.php:135 | splitting a path gives at least one segment, and no segment contains a dot |
| PhpKeys.ImplodeExplode | src/Colorium/Tools/ArrayDot.php:135 | joining the segments with `.` gives the path back, so empty segments are kept and nothing is lost |
| PhpKeys.ExplodeCount | src/Colorium/Tools/ArrayDot.php:135 | a path has exactly one segment more than it has dots |
| PhpKeys.ExplodeImplode | src/Colorium/Tools/ArrayDot.php:135 | splitting joined dot-free segments gives the same segments back |
| PhpKeys.KeyOf | src/Colorium/Tools/ArrayDot.php:137 | the key a segment addresses is a normalised key, and it is an integer key exactly when the segment spells a 64-bit integer in canonical decimal |
| PhpKeys.KeyTextRoundTrip | src/Colorium/Tools/ArrayDot.php:137 | every key an array can hold is reached by the segment that prints it |
| PhpKeys.KeyOfRoundTrip | src/Colorium/Tools/ArrayDot.php:137 | normalising a segment loses nothing: printing its key gives the segment back |
| PhpKeys.KeyOfInjective | src/Colorium/Tools/ArrayDot.php:137 | different segments address different keys |
| PhpKeys.PathKeys | src/Colorium/Tools/ArrayDot.php:135-137 | a path addresses one valid key per segment, each being the normalisation of its segment |
| PhpKeys.PathKeysInjective | src/Colorium/Tools/ArrayDot.php:135-137 | different paths address different key sequences |
| PhpArrays.Assign | src/Colorium/Tools/ArrayDot.php:206 | after `$a[$k] = $x` the key is present with value x, every other key is present with the same value as before, and the entry count grows by one exactly when k was new |
| PhpArrays.Remove | src/Colorium/Tools/ArrayDot.php:259 | `unset` keeps every other key and value and the next free key; in an array with unique keys, k is then absent and the count drops by one exactly when k was present |
| PhpArrays.AssignKeepsOrder | src/Colorium/Tools/ArrayDot.php:206 | `$a[$k] = $x` keeps the order of the entries: an existing entry is replaced at its own position with every other entry where it was, and a new entry goes after all the old ones |
| PhpArrays.RemoveKeepsOrder | src/Colorium/Tools/ArrayDot.php:259 | `unset` of a present key keeps the remaining entries in their old order |
| PhpArrays.Child | src/Colorium/Tools/ArrayDot.php:140 | `$v[$k]` is non-null only for a present key; with `ChildOfEntry` it is the value of the entry holding k, or null when none does |
| PhpArrays.IsSet | src/Colorium/Tools/ArrayDot.php:137 | `isset($v[$k])` holds only for an array in which k is present, with a non-null value (`Child`) |
| PhpArrays.ChildOfEntry | src/Colorium/Tools/ArrayDot.php:137-140 | in an array with unique keys, the value read under k is that of whichever entry has key k, and null when no entry has it |
| PhpArrays.Append | src/Colorium/Tools/ArrayDot.php:236 | `array_push` yields an array; `AppendAddsLast` states which entry it adds and when PHP refuses |
| PhpArrays.LastOf | src/Colorium/Tools/ArrayDot.php:190 | a non-null result of `array_pop` comes only from a non-empty array, and is the value of its last entry |
| PhpArrays.AssignTwice | src/Colorium/Tools/ArrayDot.php:205-206 | a second assignment to the same key overrides the first, so creating `[]` and then writing through it equals one write |
| PhpArrays.AppendAddsLast | src/Colorium/Tools/ArrayDot.php:236 | a successful `array_push` adds exactly one entry, last, with the old next free key as its key (whatever the value, null included), leaves the earlier entries unchanged and moves the next free key one on (stopping at PHP_INT_MAX); a refused one changes nothing |
| PhpArrays.NextFreeIsFree | src/Colorium/Tools/ArrayDot.php:236 | in a well-formed array, the next free key is unused until it reaches PHP_INT_MAX, so `array_push` succeeds |
| PhpArrays.ChildWF | src/Colorium/Tools/ArrayDot.php:140 | the value under a key of a well-formed array is well formed |
| PhpArrays.AssignWF | src/Colorium/Tools/ArrayDot.php:206 | assigning a well-formed value under a valid key keeps an array well formed |
| PhpArrays.RemoveWF | src/Colorium/Tools/ArrayDot.php:259 | `unset` keeps an array well formed |
| PhpArrays.AppendWF | src/Colorium/Tools/ArrayDot.php:236 | `array_push` of a well-formed value keeps an array well formed |
| DotPaths.Resolve | src/Colorium/Tools/ArrayDot.php:133-144 | a non-empty path that resolves reaches a non-null value |
| DotPaths.Lookup | src/Colorium/Tools/ArrayDot.php:155-166 | `get` returns the fallback or a value the path resolves to; with a null fallback it is null exactly when the path does not resolve |
| DotPaths.Popped | src/Colorium/Tools/ArrayDot.php:176-191 | a non-null result of `pop` comes only from a path that resolves to a non-empty array, and is the value of that array's last entry |
| DotPaths.WalkableLevels | src/Colorium/Tools/ArrayDot.php:204-208 | the `Walkable` precondition of set and push holds exactly when the cursor stands in an array at every level before the last key |
| DotPaths.SetAt | src/Colorium/Tools/ArrayDot.php:201-212 | `set` yields an array; its meaning is given by `SetAtResolves`, `SetAtCreatesIntermediates`, `SetAtIdempotent`, `SetAtFrame`, `SetAtFrameLevel` and `SetAtPlug` |
| DotPaths.Slot | src/Colorium/Tools/ArrayDot.php:232-234 | the array `push` appends to is always an array (`[]` in place of a missing, null or non-array value); `PushIsSetOfAppended` ties it to push |
| DotPaths.PushAt | src/Colorium/Tools/ArrayDot.php:222-237 | `push` yields an array; its meaning is given by `PushIsSetOfAppended`, `PushAppendsLast`, `PushAtFrame`, `PushAtFrameLevel` and `PushAtPlug` |
| DotPaths.DropAt | src/Colorium/Tools/ArrayDot.php:247-264 | a `drop` that returns true started from and yields an array; its meaning is given by `DropReportsHas`, `DropFalseKeeps`, `DropRemovesLast`, `DropFrame` and `DropFrameLevel` |
| DotPaths.ResolveSnoc | src/Colorium/Tools/ArrayDot.php:136-141 | resolving one more key goes one level below the resolved value, and fails when that key is not set there |
| DotPaths.HasIffEverySegmentSet | src/Colorium/Tools/ArrayDot.php:133-144 | `has` holds exactly when every key in turn is set (present and non-null) in the value its prefix reaches |
| DotPaths.ResolveWF | src/Colorium/Tools/ArrayDot.php:155-166 | what `get` reaches in a well-formed array is well formed |
| DotPaths.SetAtResolves | src/Colorium/Tools/ArrayDot.php:201-212 | after `set`, `get` with a null fallback returns the value written, and `has` holds exactly when that value is non-null |
| DotPaths.SetAtCreatesIntermediates | src/Colorium/Tools/ArrayDot.php:204-208 | after `set`, every proper prefix of the path reaches an array holding the next key; where the prefix did not resolve before, that array holds only that key |
| DotPaths.SetAtWalkable | src/Colorium/Tools/ArrayDot.php:201-212 | after `set`, the same path may be written again |
| DotPaths.SetAtIdempotent | src/Colorium/Tools/ArrayDot.php:201-212 | repeating the same `set` changes nothing further |
| DotPaths.SetAtFrame | src/Colorium/Tools/ArrayDot.php:203-211 | `set` leaves alone every path that leaves its own at some level: such paths resolve exactly as before |
| DotPaths.SetAtFrameLevel | src/Colorium/Tools/ArrayDot.php:203-211 | `set` keeps every key off its path at every level: at the level the first j keys reach, any key other than the j-th has the same presence and value as before, null entries included |
| DotPaths.SetAtOrderLevel | src/Colorium/Tools/ArrayDot.php:203-211 | `set` keeps the order at every level it passes: each entry whose key is not the path's next key stays at the same position with the same value |
| DotPaths.SetAtWF | src/Colorium/Tools/ArrayDot.php:201-212 | `set` of a well-formed value keeps the array well formed |
| DotPaths.PushIsSetOfAppended | src/Colorium/Tools/ArrayDot.php:222-237 | `push` equals `set` of the resolved array (or `[]` in place of a missing, null or non-array value) with v appended |
| DotPaths.PushAtResolves | src/Colorium/Tools/ArrayDot.php:222-237 | after `push`, the path resolves to that appended array |
| DotPaths.PushAppendsLast | src/Colorium/Tools/ArrayDot.php:222-237 | in a well-formed array whose pushed-onto array has its next free key below PHP_INT_MAX, `push` adds v as one new last entry after the old n entries, so `pop` then returns v; a missing, null or non-array value becomes exactly `[0 => v]` |
| DotPaths.PushAtFrame | src/Colorium/Tools/ArrayDot.php:224-236 | `push` leaves alone every path that leaves its own |
| DotPaths.PushAtFrameLevel | src/Colorium/Tools/ArrayDot.php:224-236 | `push` keeps every key off its path at every level, null entries included |
| DotPaths.PushAtOrderLevel | src/Colorium/Tools/ArrayDot.php:224-236 | `push` keeps the order at every level it passes, as for `set` |
| DotPaths.PushAtWF | src/Colorium/Tools/ArrayDot.php:222-237 | `push` of a well-formed value keeps the array well formed |
| DotPaths.DropReportsHas | src/Colorium/Tools/ArrayDot.php:247-264 | `drop` returns true exactly when `has` held for the whole path before the call |
| DotPaths.DropFalseKeeps | src/Colorium/Tools/ArrayDot.php:251-263 | a `drop` that returns false leaves the array unchanged, including when the last key is present with a null value |
| DotPaths.DropRemovesLast | src/Colorium/Tools/ArrayDot.php:258-260 | a `drop` that returns true leaves the prefix resolving, to the same array less the last key, and `has` for the whole path is then false |
| DotPaths.DropFrame | src/Colorium/Tools/ArrayDot.php:247-264 | `drop` leaves alone every path that leaves its own |
| DotPaths.DropFrameLevel | src/Colorium/Tools/ArrayDot.php:249-259 | `drop` keeps every key off its path at every level down to the last key's, null entries included, so only the last key itself may go |
| DotPaths.DropOrderLevel | src/Colorium/Tools/ArrayDot.php:251-256 | a `drop` that returns true keeps the order at every level above the last key's: each entry whose key is not the path's next key stays at the same position with the same value (at the last key's level `DropRemovesLast` and `RemoveKeepsOrder` apply; a false `drop` changes nothing) |
| DotPaths.DropWF | src/Colorium/Tools/ArrayDot.php:247-264 | `drop` keeps the array well formed |
| DotPaths.Plug | src/Colorium/Tools/ArrayDot.php:208 | writing back through a non-empty list of frames yields an array |
| DotPaths.PlugSnoc | src/Colorium/Tools/ArrayDot.php:208 | writing back through one more frame is one more assignment at the innermost level |
| DotPaths.Enter | src/Colorium/Tools/ArrayDot.php:205-206 | the array the cursor stands in holds, under the key it moves to, the existing set value or a new `[]` |
| DotPaths.Frames | src/Colorium/Tools/ArrayDot.php:204-209 | the cursor passes one array per key of the path |
| DotPaths.SetAtPlug | src/Colorium/Tools/ArrayDot.php:204-211 | `set` equals the creating walk down the path followed by writing v back through the arrays passed |
| DotPaths.PushAtPlug | src/Colorium/Tools/ArrayDot.php:225-236 | `push` equals the creating walk, the append at the reached value (`[]` if that is not an array), and the write-back |
| Tools.ArrayDot.constructor | src/Colorium/Tools/ArrayDot.php:17-20 | the new wrapper holds the given array |
| Tools.ArrayDot.Bind | src/Colorium/Tools/ArrayDot.php:29-32 | `bind` yields a fresh wrapper whose array equals the input |
| Tools.ArrayDot.OffsetExists | src/Colorium/Tools/ArrayDot.php:41-44 | `isset($dot[$p])` answers exactly as `has` on the wrapped array |
| Tools.ArrayDot.OffsetGet | src/Colorium/Tools/ArrayDot.php:53-56 | `$dot[$p]` is `get` with a null fallback, and it is null exactly when `has` is false |
| Tools.ArrayDot.OffsetSet | src/Colorium/Tools/ArrayDot.php:65-68 | `$dot[$p] = $v` replaces the wrapped array by the result of `set`, keeping it well formed |
| Tools.ArrayDot.OffsetUnset | src/Colorium/Tools/ArrayDot.php:76-79 | `unset($dot[$p])` replaces the wrapped array by the result of `drop`, keeping it well formed |
| Tools.ArrayDot.Count | src/Colorium/Tools/ArrayDot.php:120-123 | `count($dot)` is the number of top-level entries |
| Tools.ArrayDot.Has | src/Colorium/Tools/ArrayDot.php:133-144 | the loop answers true exactly when the path resolves |
| Tools.ArrayDot.Get | src/Colorium/Tools/ArrayDot.php:155-166 | the loop returns the resolved value, or the fallback when the path does not resolve |
| Tools.ArrayDot.Pop | src/Colorium/Tools/ArrayDot.php:176-191 | the loop returns the last value of the resolved array, or null when the path does not resolve, resolves to a non-array, or resolves to `[]`; the caller's array is a value and is not changed |
| Tools.ArrayDot.Set | src/Colorium/Tools/ArrayDot.php:201-212 | the cursor walk and write-back return exactly `SetAt` of the input |
| Tools.ArrayDot.Push | src/Colorium/Tools/ArrayDot.php:222-237 | the cursor walk, the append and the write-back return exactly `PushAt` of the input |
| Tools.ArrayDot.Drop | src/Colorium/Tools/ArrayDot.php:247-264 | splitting off the last key, walking the prefix without creating anything and unsetting the last key return exactly `DropAt` of the input, with its answer |
| Tools.ArrayDot.WalkCreating | src/Colorium/Tools/ArrayDot.php:204-209 | the loop that creates `[]` under unset keys passes exactly the arrays `Frames` lists and stops where `Reached` says |
| Tools.ArrayDot.WriteBack | src/Colorium/Tools/ArrayDot.php:208 | writing the innermost result back through the frames, innermost first, gives `Plug` of them |

## Left out

- `serialize` and `unserialize` (src/Colorium/Tools/ArrayDot.php:98-112) are left out. They are PHP's native serialisation format, an engine call whose encoding is not part of this model.
- `getIterator` (src/Colorium/Tools/ArrayDot.php:87-90) is left out. It builds an engine `ArrayIterator`; what it iterates is the wrapped array's entries, in order.
- String, floating-point and object values are left out: leaves are booleans and integers. So are PHP's string offsets (`isset("abc"[0])`, writing into a string). So are objects implementing `ArrayAccess` on the path, whose `offsetExists`/`offsetGet`/`offsetSet` PHP would call in place of the array operations.
- Tools.ArrayDot.Set: requires that no set, non-array value stands on the path before its last key (`Walkable`). The model leaves out PHP's warning or error paths for writing an offset into a scalar, and the conversion of `false` into an array.
- Tools.ArrayDot.Push: requires `Walkable`, for the same reason as `Set`.
- Tools.ArrayDot.OffsetSet: requires `Walkable`, for the same reason as `Set`. It also requires that the value stored is well formed (`WF`), as every PHP value is.
- The wrapped array is well formed (`Valid`) by invariant, which every PHP array satisfies. The static operations take an array (`Container`, as the `array` parameter type demands) and do not require `WF`; `Set` and `Push` require `Walkable`, as listed above.
- `offsetSet(null, $v)` (`$dot[] = $v`) is left out: it hands a null path to `explode`, whose coercion depends on the PHP version. Paths are strings; PHP's coercion of an integer path to a string is not modelled.
- Default arguments are not modelled. `new ArrayDot()` is the constructor applied to `[]`, and a `get` with no fallback is `Get` with `Null`.
- The array semantics follow PHP 7.x. In PHP 8.0 and later, an `array_push` whose next key is already taken throws an Error instead of leaving the array unchanged; that path is not modelled. Nor is the PHP 8.3 rule for the key used after a negative integer key.
- Integer keys are bounded by the 64-bit range. Integer leaf values are unbounded because no operation computes with them.
- Update in place through references is modelled by value: each static write returns the new array, and the wrapper's methods assign it to the field. Aliasing between a caller's variable and the wrapper does not arise, since the code copies.

=== FILE: array_dot.dfy ===
/** The ArrayDot class: static dot-path operations on a caller's array, and a wrapper
    object that holds one array and forwards the array-access protocol to them.

    PHP arrays are values, so a parameter `array &$array` amounts to an array passed in and
    the updated array handed back; the static methods here take the container and return
    the new one. The reference cursor `$array = &$array[$key]` of set, push and drop is
    modelled by remembering the arrays it passes (the frames) and writing the innermost
    result back through them, outermost last (WriteBack).
 */
module Tools {
  import opened PhpKeys
  import opened PhpArrays
  import opened DotPaths

  class ArrayDot {
    /** The wrapped array (`$this->array`). */
    var inner: Container

    ghost predicate Valid()
      reads this
    {
      WF(inner)
    }

    /** `new ArrayDot($input)`: the wrapper holds the given array. */
    constructor (input: Container)
      requires WF(input)
      ensures Valid() && inner == input
    {
      inner := input;
    }

    /** `ArrayDot::bind($input)`: goes through the by-value constructor, so the wrapper
        holds a copy of the caller's array, not an alias of it. */
    static method Bind(input: Container) returns (w: ArrayDot)
      requires WF(input)
      ensures fresh(w) && w.Valid() && w.inner == input
    {
      w := new ArrayDot(input);
    }

    /** `isset($dot[$offset])`. */
    method OffsetExists(offset: string) returns (b: bool)
      ensures b == Resolve(inner, PathKeys(offset)).Some?
    {
      b := Has(inner, offset);
    }

    /** `$dot[$offset]`: the resolved value, null when the path does not resolve. */
    method OffsetGet(offset: string) returns (x: Value)
      ensures x == Lookup(inner, PathKeys(offset), Null)
      ensures x == Null <==> Resolve(inner, PathKeys(offset)).None?
    {
      x := Get(inner, offset, Null);
    }

    /** `$dot[$offset] = $value`. */
    method OffsetSet(offset: string, value: Value)
      requires Valid() && WF(value) && Walkable(inner, PathKeys(offset))
      modifies this
      ensures Valid()
      ensures inner == SetAt(old(inner), PathKeys(offset), value)
    {
      SetAtWF(inner, PathKeys(offset), value);
      inner := Set(inner, offset, value);
    }

    /** `unset($dot[$offset])`: drop, its answer discarded. */
    method OffsetUnset(offset: string)
      requires Valid()
      modifies this
      ensures Valid()
      ensures var ks := PathKeys(offset);
        inner == DropAt(old(inner), ks[..|ks| - 1], ks[|ks| - 1]).0
    {
      var ks := PathKeys(offset);
      DropWF(inner, ks[..|ks| - 1], ks[|ks| - 1]);
      var r, _ := Drop(inner, offset);
      inner := r;
    }

    /** `count($dot)`: the number of top-level entries. */
    method Count() returns (n: nat)
      ensures n == |inner.entries|
    {
      n := |inner.entries|;
    }

    // -------------------------------------------------------------------------
    // Static path operations
    // -------------------------------------------------------------------------

    /** `ArrayDot::has($c, $path)`. */
    static method Has(c: Container, path: string) returns (found: bool)
      ensures found == Resolve(c, PathKeys(path)).Some?
    {
      var ks := PathKeys(path);
      var cur: Value := c;
      var i := 0;
      while i < |ks|
        invariant 0 <= i <= |ks|
        invariant Resolve(cur, ks[i..]) == Resolve(c, ks)
      {
        assert ks[i..][1..] == ks[i + 1..];
        if !IsSet(cur, ks[i]) {
          return false;
        }
        cur := Child(cur, ks[i]);
        i := i + 1;
      }
      return true;
    }

    /** `ArrayDot::get($c, $path, $fallback)`. */
    static method Get(c: Container, path: string, fallback: Value) returns (x: Value)
      ensures x == Lookup(c, PathKeys(path), fallback)
    {
      var ks := PathKeys(path);
      var cur: Value := c;
      var i := 0;
      while i < |ks|
        invariant 0 <= i <= |ks|
        invariant Resolve(cur, ks[i..]) == Resolve(c, ks)
      {
        assert ks[i..][1..] == ks[i + 1..];
        if !IsSet(cur, ks[i]) {
          return fallback;
        }
        cur := Child(cur, ks[i]);
        i := i + 1;
      }
      return cur;
    }

    /** `ArrayDot::pop($c, $path)`: $c is taken by value, so only a local copy loses its
        last entry; the caller's array is untouched and the popped value is returned. */
    static method Pop(c: Container, path: string) returns (x: Value)
      ensures x == Popped(c, PathKeys(path))
    {
      var ks := PathKeys(path);
      var cur: Value := c;
      var i := 0;
      while i < |ks|
        invariant 0 <= i <= |ks|
        invariant Resolve(cur, ks[i..]) == Resolve(c, ks)
      {
        assert ks[i..][1..] == ks[i + 1..];
        if !IsSet(cur, ks[i]) {
          return Null;
        }
        cur := Child(cur, ks[i]);
        i := i + 1;
      }
      if !cur.Arr? {
        return Null;
      }
      x := LastOf(cur);
    }

    /** `ArrayDot::set($c, $path, $value)`: walk down creating, then write v in. */
    static method Set(c: Container, path: string, v: Value) returns (r: Container)
      requires Walkable(c, PathKeys(path))
      ensures r == SetAt(c, PathKeys(path), v)
    {
      var ks := PathKeys(path);
      var frames, _ := WalkCreating(c, ks);
      SetAtPlug(c, ks, v);
      var w := WriteBack(frames, ks, v);
      r := w;
    }

    /** `ArrayDot::push($c, $path, $value)`: walk down creating, replace a non-array by `[]`,
        append v, write the result back. */
    static method Push(c: Container, path: string, v: Value) returns (r: Container)
      requires Walkable(c, PathKeys(path))
      ensures r == PushAt(c, PathKeys(path), v)
    {
      var ks := PathKeys(path);
      var frames, cur := WalkCreating(c, ks);
      if !cur.Arr? {
        cur := Empty;
      }
      cur := Append(cur, v);
      PushAtPlug(c, ks, v);
      var w := WriteBack(frames, ks, cur);
      r := w;
    }

    /** The cursor loop of set and push: for each key, `$array[$key] = []` unless it is set,
        then `$array = &$array[$key]`. Returns the arrays passed and where the cursor ends. */
    static method WalkCreating(c: Container, ks: seq<Key>) returns (frames: seq<Value>, cur: Value)
      requires Walkable(c, ks)
      ensures frames == Frames(c, ks) && cur == Reached(c, ks)
    {
      frames := [];
      cur := c;
      var i := 0;
      while i < |ks|
        invariant 0 <= i <= |ks|
        invariant Walkable(cur, ks[i..])
        invariant frames + Frames(cur, ks[i..]) == Frames(c, ks)
        invariant Reached(cur, ks[i..]) == Reached(c, ks)
      {
        var k := ks[i];
        assert ks[i..][0] == k && ks[i..][1..] == ks[i + 1..];
        if !IsSet(cur, k) {
          cur := Assign(cur, k, Empty);
        }
        frames := frames + [cur];
        cur := Child(cur, k);
        i := i + 1;
      }
      assert ks[i..] == [];
    }

    /** `ArrayDot::drop($c, $path)`: the last key is split off first; the others are walked
        without creating anything. */
    static method Drop(c: Container, path: string) returns (r: Container, dropped: bool)
      ensures var ks := PathKeys(path);
        (r, dropped) == DropAt(c, ks[..|ks| - 1], ks[|ks| - 1])
    {
      var ks := PathKeys(path);
      var prefix, last := ks[..|ks| - 1], ks[|ks| - 1];
      var frames: seq<Value> := [];
      var cur: Value := c;
      var i := 0;
      while i < |prefix|
        invariant 0 <= i <= |prefix| && |frames| == i
        invariant forall j :: 0 <= j < i ==> frames[j].Arr?
        invariant DropAt(cur, prefix[i..], last).1 == DropAt(c, prefix, last).1
        invariant DropAt(cur, prefix[i..], last).1 ==>
          Plug(frames, prefix[..i], DropAt(cur, prefix[i..], last).0) == DropAt(c, prefix, last).0
      {
        var k := prefix[i];
        assert prefix[i..][0] == k && prefix[i..][1..] == prefix[i + 1..];
        assert prefix[..i + 1] == prefix[..i] + [k];
        if !IsSet(cur, k) {
          DropFalseKeeps(c, prefix, last);
          return c, false;
        }
        PlugSnoc(frames, prefix[..i], cur, k, DropAt(Child(cur, k), prefix[i + 1..], last).0);
        frames := frames + [cur];
        cur := Child(cur, k);
        i := i + 1;
      }
      assert prefix[i..] == [] && prefix[..i] == prefix;
      if !IsSet(cur, last) {
        DropFalseKeeps(c, prefix, last);
        return c, false;
      }
      cur := Remove(cur, last);
      var w := WriteBack(frames, prefix, cur);
      r, dropped := w, true;
    }

    /** Writes x back through the frames, innermost first, as the reference cursor's
        writes reach the caller's array. */
    static method WriteBack(frames: seq<Value>, ks: seq<Key>, x: Value) returns (r: Value)
      requires |frames| == |ks|
      requires forall j :: 0 <= j < |frames| ==> frames[j].Arr?
      ensures r == Plug(frames, ks, x)
    {
      r := x;
      var j := |frames|;
      assert frames[..j] == frames && ks[..j] == ks;
      while j > 0
        invariant 0 <= j <= |frames|
        invariant Plug(frames[..j], ks[..j], r) == Plug(frames, ks, x)
      {
        j := j - 1;
        assert frames[..j + 1] == frames[..j] + [frames[j]];
        assert ks[..j + 1] == ks[..j] + [ks[j]];
        PlugSnoc(frames[..j], ks[..j], frames[j], ks[j], r);
        r := Assign(frames[j], ks[j], r);
      }
      assert frames[..0] == [] && ks[..0] == [];
    }
  }
}

=== FILE: dot_paths.dfy ===
/** What ArrayDot's path walks compute, stated on values, and what they promise.

    Every walk goes through the keys of a path outermost first. The read walks (has, get,
    pop) test each level with `isset` and stop at the first key that is missing or null.
    The write walks of set and push create an empty array under such a key and go on; drop
    walks all keys but the last without creating anything and unsets the last.
 */
module DotPaths {
  import opened PhpKeys
  import opened PhpArrays

  // ---------------------------------------------------------------------------
  // Reading
  // ---------------------------------------------------------------------------

  /** The value a key path leads to, or None as soon as a key is not `isset` at its level. */
  function Resolve(c: Value, ks: seq<Key>): (r: Option<Value>)
    ensures ks != [] && r.Some? ==> r.value != Null
    decreases |ks|
  {
    if ks == [] then Some(c)
    else if IsSet(c, ks[0]) then Resolve(Child(c, ks[0]), ks[1..])
    else None
  }

  /** What `get` returns: the resolved value, or the fallback. */
  function Lookup(c: Value, ks: seq<Key>, fallback: Value): (x: Value)
    ensures x == fallback || Resolve(c, ks) == Some(x)
    ensures ks != [] && fallback == Null ==> (x == Null <==> Resolve(c, ks).None?)
  {
    match Resolve(c, ks)
    case Some(x) => x
    case None => fallback
  }

  /** What `pop` returns: the last value of the resolved array, or null. */
  function Popped(c: Value, ks: seq<Key>): (x: Value)
    ensures x != Null ==>
      && Resolve(c, ks).Some? && Resolve(c, ks).value.Arr?
      && |Resolve(c, ks).value.entries| > 0
      && x == Resolve(c, ks).value.entries[|Resolve(c, ks).value.entries| - 1].val
  {
    match Resolve(c, ks)
    case Some(x) => LastOf(x)
    case None => Null
  }

  // ---------------------------------------------------------------------------
  // Writing
  // ---------------------------------------------------------------------------

  /** Where the write cursor of set and push goes from c under key k: the existing value
      when it is set, a new `[]` otherwise. */
  function Descend(c: Value, k: Key): Value {
    if IsSet(c, k) then Child(c, k) else Empty
  }

  /** Every level that set or push writes into is an array: no set, non-array value
      stands on the path before its last key. */
  predicate Walkable(c: Value, ks: seq<Key>)
    decreases |ks|
  {
    ks == [] || (c.Arr? && Walkable(Descend(c, ks[0]), ks[1..]))
  }

  /** Walkable says exactly that the write cursor stands in an array at every level before
      the last key. */
  lemma {:induction false} WalkableLevels(c: Value, ks: seq<Key>)
    ensures Walkable(c, ks) <==> forall i :: 0 <= i < |ks| ==> Reached(c, ks[..i]).Arr?
    decreases |ks|
  {
    if ks != [] {
      var d := Descend(c, ks[0]);
      WalkableLevels(d, ks[1..]);
      assert ks[..0] == [];
      forall i | 0 < i < |ks|
        ensures Reached(c, ks[..i]) == Reached(d, ks[1..][..i - 1])
      {
        assert ks[..i][0] == ks[0] && ks[..i][1..] == ks[1..][..i - 1];
      }
      if forall i :: 0 <= i < |ks| ==> Reached(c, ks[..i]).Arr? {
        forall i | 0 <= i < |ks| - 1
          ensures Reached(d, ks[1..][..i]).Arr?
        {
          assert Reached(c, ks[..i + 1]).Arr?;
        }
      }
    }
  }

  /** c after `set` of v under the key path ks. */
  function SetAt(c: Value, ks: seq<Key>, v: Value): (r: Value)
    requires Walkable(c, ks)
    ensures ks != [] ==> r.Arr?
    decreases |ks|
  {
    if ks == [] then v
    else Assign(c, ks[0], SetAt(Descend(c, ks[0]), ks[1..], v))
  }

  /** The array `push` appends to: the resolved value when it is an array, `[]` otherwise. */
  function Slot(c: Value, ks: seq<Key>): (a: Value)
    ensures a.Arr?
  {
    match Resolve(c, ks)
    case Some(x) => if x.Arr? then x else Empty
    case None => Empty
  }

  /** c after `push` of v onto the array under the key path ks. */
  function PushAt(c: Value, ks: seq<Key>, v: Value): (r: Value)
    requires Walkable(c, ks)
    ensures r.Arr?
    decreases |ks|
  {
    if ks == [] then Append(if c.Arr? then c else Empty, v)
    else Assign(c, ks[0], PushAt(Descend(c, ks[0]), ks[1..], v))
  }

  /** c after `drop` of the key path prefix + [last], and whether an entry was unset. */
  function DropAt(c: Value, prefix: seq<Key>, last: Key): (r: (Value, bool))
    ensures r.1 ==> c.Arr? && r.0.Arr?
    decreases |prefix|
  {
    if prefix == [] then
      if IsSet(c, last) then (Remove(c, last), true) else (c, false)
    else if IsSet(c, prefix[0]) then
      var (d, dropped) := DropAt(Child(c, prefix[0]), prefix[1..], last);
      (Assign(c, prefix[0], d), dropped)
    else (c, false)
  }

  /** Writing x back through the arrays a reference cursor passed: frames[j] is the array
      the cursor stood in before it moved under key ks[j]. */
  function Plug(frames: seq<Value>, ks: seq<Key>, x: Value): (r: Value)
    requires |frames| == |ks|
    requires forall j :: 0 <= j < |frames| ==> frames[j].Arr?
    ensures frames != [] ==> r.Arr?
    decreases |frames|
  {
    if frames == [] then x
    else Assign(frames[0], ks[0], Plug(frames[1..], ks[1..], x))
  }

  // ---------------------------------------------------------------------------
  // Reading: properties
  // ---------------------------------------------------------------------------

  /** Resolving one key further goes one level below the resolved value. */
  lemma {:induction false} ResolveSnoc(c: Value, ks: seq<Key>, k: Key)
    ensures Resolve(c, ks + [k]) ==
      match Resolve(c, ks)
      case None => None
      case Some(x) => if IsSet(x, k) then Some(Child(x, k)) else None
    decreases |ks|
  {
    if ks == [] {
      assert ks + [k] == [k];
    } else {
      assert (ks + [k])[0] == ks[0] && (ks + [k])[1..] == ks[1..] + [k];
      if IsSet(c, ks[0]) {
        ResolveSnoc(Child(c, ks[0]), ks[1..], k);
      }
    }
  }

  /** `has` holds exactly when each key in turn is `isset` in the value its prefix reaches. */
  lemma {:induction false} HasIffEverySegmentSet(c: Value, ks: seq<Key>)
    ensures Resolve(c, ks).Some? <==>
      forall i :: 0 <= i < |ks| ==>
        Resolve(c, ks[..i]).Some? && IsSet(Resolve(c, ks[..i]).value, ks[i])
    decreases |ks|
  {
    if ks != [] {
      var n := |ks|;
      var p, k := ks[..n - 1], ks[n - 1];
      assert ks == p + [k];
      HasIffEverySegmentSet(c, p);
      ResolveSnoc(c, p, k);
      assert forall i :: 0 <= i < n - 1 ==> ks[..i] == p[..i];
      assert ks[..n - 1] == p;
    }
  }

  /** Resolving in a well-formed value yields a well-formed value. */
  lemma {:induction false} ResolveWF(c: Value, ks: seq<Key>)
    requires WF(c) && Resolve(c, ks).Some?
    ensures WF(Resolve(c, ks).value)
    decreases |ks|
  {
    if ks != [] {
      ChildWF(c, ks[0]);
      ResolveWF(Child(c, ks[0]), ks[1..]);
    }
  }

  // ---------------------------------------------------------------------------
  // set: properties
  // ---------------------------------------------------------------------------

  /** After `set`, the path resolves to the value written (so `get` returns it), and `has`
      holds unless the value is null. */
  lemma {:induction false} SetAtResolves(c: Value, ks: seq<Key>, v: Value)
    requires Walkable(c, ks) && ks != []
    ensures Resolve(SetAt(c, ks, v), ks) == if v == Null then None else Some(v)
    ensures Lookup(SetAt(c, ks, v), ks, Null) == v
    decreases |ks|
  {
    if |ks| > 1 {
      SetAtResolves(Descend(c, ks[0]), ks[1..], v);
    }
  }

  /** After `set`, every proper prefix of the path reaches an array that holds the next key;
      where the prefix did not resolve before, that array was created and holds nothing else. */
  lemma {:induction false} SetAtCreatesIntermediates(c: Value, ks: seq<Key>, v: Value, i: nat)
    requires Walkable(c, ks) && 0 < i < |ks|
    ensures var r := Resolve(SetAt(c, ks, v), ks[..i]);
      r.Some? && r.value.Arr? && Present(r.value, ks[i])
    ensures Resolve(c, ks[..i]).None? ==>
      |Resolve(SetAt(c, ks, v), ks[..i]).value.entries| == 1
    decreases i
  {
    var k, d := ks[0], Descend(c, ks[0]);
    var s := SetAt(d, ks[1..], v);
    assert ks[..i][0] == k && ks[..i][1..] == ks[1..][..i - 1];
    if i == 1 {
      assert ks[..1] == [k];
      assert Resolve(SetAt(c, ks, v), [k]) == Some(s);
      if !IsSet(c, k) {
        assert d == Empty && !Present(d, ks[1]);
        assert s == Assign(d, ks[1], SetAt(Descend(d, ks[1]), ks[2..], v)) by {
          assert ks[1..][0] == ks[1] && ks[1..][1..] == ks[2..];
        }
        assert |s.entries| == 1;
      } else {
        assert Resolve(c, [k]) == Some(Child(c, k));
      }
    } else {
      SetAtCreatesIntermediates(d, ks[1..], v, i - 1);
    }
  }

  /** After `set`, a second `set` along the same path is still allowed. */
  lemma {:induction false} SetAtWalkable(c: Value, ks: seq<Key>, v: Value)
    requires Walkable(c, ks)
    ensures Walkable(SetAt(c, ks, v), ks)
    decreases |ks|
  {
    if |ks| > 1 {
      SetAtWalkable(Descend(c, ks[0]), ks[1..], v);
    }
  }

  /** Repeating the same `set` changes nothing further. */
  lemma {:induction false} SetAtIdempotent(c: Value, ks: seq<Key>, v: Value)
    requires Walkable(c, ks)
    ensures Walkable(SetAt(c, ks, v), ks)
    ensures SetAt(SetAt(c, ks, v), ks, v) == SetAt(c, ks, v)
    decreases |ks|
  {
    SetAtWalkable(c, ks, v);
    if ks != [] {
      var k, d := ks[0], Descend(c, ks[0]);
      var s := SetAt(d, ks[1..], v);
      var r := Assign(c, k, s);
      if |ks| > 1 {
        SetAtIdempotent(d, ks[1..], v);
        assert Descend(r, k) == s;
      } else {
        assert SetAt(Descend(r, k), ks[1..], v) == v;
      }
      AssignTwice(c, k, s, s);
    }
  }

  /** `set` leaves alone every path that parts from its own: those resolve as before. */
  lemma {:induction false} SetAtFrame(c: Value, ks: seq<Key>, v: Value, qs: seq<Key>, i: nat)
    requires Walkable(c, ks)
    requires i < |qs| && i < |ks| && qs[i] != ks[i]
    ensures Resolve(SetAt(c, ks, v), qs) == Resolve(c, qs)
    decreases i
  {
    var k, d := ks[0], Descend(c, ks[0]);
    if qs[0] == k {
      SetAtFrame(d, ks[1..], v, qs[1..], i - 1);
    }
  }

  /** `set` keeps every key off its path at every level: at the level reached by the first j
      keys, any key other than the j-th has the same presence and value as before (null
      entries included). */
  lemma {:induction false} SetAtFrameLevel(c: Value, ks: seq<Key>, v: Value, j: nat, k': Key)
    requires Walkable(c, ks) && j < |ks| && k' != ks[j]
    ensures var a, b := Reached(SetAt(c, ks, v), ks[..j]), Reached(c, ks[..j]);
      Present(a, k') == Present(b, k') && Child(a, k') == Child(b, k')
    decreases j
  {
    if j == 0 {
      assert ks[..0] == [];
    } else {
      var k, d := ks[0], Descend(c, ks[0]);
      assert ks[..j][0] == k && ks[..j][1..] == ks[1..][..j - 1];
      assert Descend(SetAt(c, ks, v), k) == SetAt(d, ks[1..], v);
      SetAtFrameLevel(d, ks[1..], v, j - 1, k');
    }
  }

  /** `set` keeps the order of every level it passes: at the level the first j keys reach,
      each entry whose key is not the j-th stays at its position with its value. */
  lemma {:induction false} SetAtOrderLevel(c: Value, ks: seq<Key>, v: Value, j: nat)
    requires Walkable(c, ks) && j < |ks|
    ensures Reached(c, ks[..j]).Arr? && Reached(SetAt(c, ks, v), ks[..j]).Arr?
    ensures var a, b := Reached(SetAt(c, ks, v), ks[..j]), Reached(c, ks[..j]);
      forall i :: 0 <= i < |b.entries| && b.entries[i].key != ks[j] ==>
        i < |a.entries| && a.entries[i] == b.entries[i]
    decreases j
  {
    if j == 0 {
      assert ks[..0] == [];
      AssignKeepsOrder(c, ks[0], SetAt(Descend(c, ks[0]), ks[1..], v));
    } else {
      var k, d := ks[0], Descend(c, ks[0]);
      assert ks[..j][0] == k && ks[..j][1..] == ks[1..][..j - 1];
      assert Descend(SetAt(c, ks, v), k) == SetAt(d, ks[1..], v);
      SetAtOrderLevel(d, ks[1..], v, j - 1);
    }
  }

  /** `set` of a well-formed value under valid keys keeps the container well formed. */
  lemma {:induction false} SetAtWF(c: Value, ks: seq<Key>, v: Value)
    requires Walkable(c, ks) && WF(c) && WF(v)
    requires forall i :: 0 <= i < |ks| ==> ValidKey(ks[i])
    ensures WF(SetAt(c, ks, v))
    decreases |ks|
  {
    if ks != [] {
      var d := Descend(c, ks[0]);
      ChildWF(c, ks[0]);
      SetAtWF(d, ks[1..], v);
      AssignWF(c, ks[0], SetAt(d, ks[1..], v));
    }
  }

  // ---------------------------------------------------------------------------
  // push: properties
  // ---------------------------------------------------------------------------

  /** `push` is `set` of the pushed-onto array: the resolved array, or `[]` in place of a
      missing, null or non-array value, with v appended. */
  lemma {:induction false} PushIsSetOfAppended(c: Value, ks: seq<Key>, v: Value)
    requires Walkable(c, ks)
    ensures PushAt(c, ks, v) == SetAt(c, ks, Append(Slot(c, ks), v))
    decreases |ks|
  {
    if ks != [] {
      var k, d := ks[0], Descend(c, ks[0]);
      PushIsSetOfAppended(d, ks[1..], v);
      assert Slot(d, ks[1..]) == Slot(c, ks);
    }
  }

  /** After `push` the path resolves to the array v was appended to. */
  lemma PushAtResolves(c: Value, ks: seq<Key>, v: Value)
    requires Walkable(c, ks) && ks != []
    ensures Resolve(PushAt(c, ks, v), ks) == Some(Append(Slot(c, ks), v))
  {
    PushIsSetOfAppended(c, ks, v);
    SetAtResolves(c, ks, Append(Slot(c, ks), v));
  }

  /** In a well-formed container, `push` adds v as one new last entry under the next free
      integer key (so `pop` then yields v); a missing, null or non-array value becomes
      exactly `[0 => v]`. Only once the next free key has stopped at PHP_INT_MAX may PHP
      refuse the append. */
  lemma PushAppendsLast(c: Value, ks: seq<Key>, v: Value)
    requires Walkable(c, ks) && ks != [] && WF(c)
    ensures Resolve(PushAt(c, ks, v), ks).Some? && Resolve(PushAt(c, ks, v), ks).value.Arr?
    ensures var before, after := Slot(c, ks), Resolve(PushAt(c, ks, v), ks).value;
      before.nextFree < IntMax ==>
        && after.entries == before.entries + [Entry(IntKey(before.nextFree), v)]
        && Popped(PushAt(c, ks, v), ks) == v
    ensures (Resolve(c, ks).None? || !Resolve(c, ks).value.Arr?) ==>
      Resolve(PushAt(c, ks, v), ks).value.entries == [Entry(IntKey(0), v)]
  {
    PushAtResolves(c, ks, v);
    var before := Slot(c, ks);
    if Resolve(c, ks).Some? {
      ResolveWF(c, ks);
    }
    assert WF(before);
    if before.nextFree < IntMax {
      NextFreeIsFree(before);
      AppendAddsLast(before, v);
    }
  }

  /** `push` leaves alone every path that parts from its own. */
  lemma PushAtFrame(c: Value, ks: seq<Key>, v: Value, qs: seq<Key>, i: nat)
    requires Walkable(c, ks)
    requires i < |qs| && i < |ks| && qs[i] != ks[i]
    ensures Resolve(PushAt(c, ks, v), qs) == Resolve(c, qs)
  {
    PushIsSetOfAppended(c, ks, v);
    SetAtFrame(c, ks, Append(Slot(c, ks), v), qs, i);
  }

  /** `push` keeps every key off its path at every level, null entries included. */
  lemma PushAtFrameLevel(c: Value, ks: seq<Key>, v: Value, j: nat, k': Key)
    requires Walkable(c, ks) && j < |ks| && k' != ks[j]
    ensures var a, b := Reached(PushAt(c, ks, v), ks[..j]), Reached(c, ks[..j]);
      Present(a, k') == Present(b, k') && Child(a, k') == Child(b, k')
  {
    PushIsSetOfAppended(c, ks, v);
    SetAtFrameLevel(c, ks, Append(Slot(c, ks), v), j, k');
  }

  /** `push` keeps the order of every level it passes, as `SetAtOrderLevel`. */
  lemma PushAtOrderLevel(c: Value, ks: seq<Key>, v: Value, j: nat)
    requires Walkable(c, ks) && j < |ks|
    ensures Reached(c, ks[..j]).Arr? && Reached(PushAt(c, ks, v), ks[..j]).Arr?
    ensures var a, b := Reached(PushAt(c, ks, v), ks[..j]), Reached(c, ks[..j]);
      forall i :: 0 <= i < |b.entries| && b.entries[i].key != ks[j] ==>
        i < |a.entries| && a.entries[i] == b.entries[i]
  {
    PushIsSetOfAppended(c, ks, v);
    SetAtOrderLevel(c, ks, Append(Slot(c, ks), v), j);
  }

  /** `push` of a well-formed value under valid keys keeps the container well formed. */
  lemma PushAtWF(c: Value, ks: seq<Key>, v: Value)
    requires Walkable(c, ks) && WF(c) && WF(v)
    requires forall i :: 0 <= i < |ks| ==> ValidKey(ks[i])
    ensures WF(PushAt(c, ks, v))
  {
    var before := Slot(c, ks);
    if Resolve(c, ks).Some? {
      ResolveWF(c, ks);
    }
    AppendWF(before, v);
    PushIsSetOfAppended(c, ks, v);
    SetAtWF(c, ks, Append(before, v));
  }

  // ---------------------------------------------------------------------------
  // drop: properties
  // ---------------------------------------------------------------------------

  /** `drop` reports true exactly when `has` held for the whole path before the call. */
  lemma {:induction false} DropReportsHas(c: Value, prefix: seq<Key>, last: Key)
    ensures DropAt(c, prefix, last).1 == Resolve(c, prefix + [last]).Some?
    decreases |prefix|
  {
    if prefix == [] {
      assert prefix + [last] == [last];
    } else {
      assert (prefix + [last])[0] == prefix[0];
      assert (prefix + [last])[1..] == prefix[1..] + [last];
      if IsSet(c, prefix[0]) {
        DropReportsHas(Child(c, prefix[0]), prefix[1..], last);
      }
    }
  }

  /** A `drop` that reports false leaves the container exactly as it was. */
  lemma {:induction false} DropFalseKeeps(c: Value, prefix: seq<Key>, last: Key)
    requires !DropAt(c, prefix, last).1
    ensures DropAt(c, prefix, last).0 == c
    decreases |prefix|
  {
    if prefix != [] && IsSet(c, prefix[0]) {
      DropFalseKeeps(Child(c, prefix[0]), prefix[1..], last);
      AssignSame(c, prefix[0]);
    }
  }

  /** A `drop` that reports true unsets only the last key: the prefix still resolves, to the
      same array less that key, and in a well-formed container `has` is then false. */
  lemma {:induction false} DropRemovesLast(c: Value, prefix: seq<Key>, last: Key)
    requires WF(c) && DropAt(c, prefix, last).1
    ensures Resolve(c, prefix).Some? && Resolve(c, prefix).value.Arr?
    ensures var r := DropAt(c, prefix, last).0;
      && Resolve(r, prefix + [last]).None?
      && Resolve(r, prefix) == Some(Remove(Resolve(c, prefix).value, last))
    decreases |prefix|
  {
    if prefix == [] {
      assert prefix + [last] == [last];
    } else {
      var k := prefix[0];
      assert (prefix + [last])[0] == k;
      assert (prefix + [last])[1..] == prefix[1..] + [last];
      ChildWF(c, k);
      DropRemovesLast(Child(c, k), prefix[1..], last);
    }
  }

  /** `drop` leaves alone every path that parts from its own. */
  lemma {:induction false} DropFrame(c: Value, prefix: seq<Key>, last: Key, qs: seq<Key>, i: nat)
    requires i < |qs| && i <= |prefix| && qs[i] != (prefix + [last])[i]
    ensures Resolve(DropAt(c, prefix, last).0, qs) == Resolve(c, qs)
    decreases i
  {
    if !DropAt(c, prefix, last).1 {
      DropFalseKeeps(c, prefix, last);
    } else if prefix != [] && qs[0] == prefix[0] {
      assert (prefix + [last])[i] == (prefix[1..] + [last])[i - 1];
      DropFrame(Child(c, prefix[0]), prefix[1..], last, qs[1..], i - 1);
    }
  }

  /** `drop` keeps every key off its path at every level down to the last key's, null
      entries included: only the last key itself may go. */
  lemma {:induction false} DropFrameLevel(c: Value, prefix: seq<Key>, last: Key, j: nat, k': Key)
    requires j <= |prefix| && k' != (prefix + [last])[j]
    ensures var a, b := Reached(DropAt(c, prefix, last).0, prefix[..j]), Reached(c, prefix[..j]);
      Present(a, k') == Present(b, k') && Child(a, k') == Child(b, k')
    decreases j
  {
    if !DropAt(c, prefix, last).1 {
      DropFalseKeeps(c, prefix, last);
    } else if j == 0 {
      assert prefix[..0] == [];
      if prefix == [] {
        assert k' != last;
      }
    } else {
      var k := prefix[0];
      var d := DropAt(Child(c, k), prefix[1..], last).0;
      assert prefix[..j][0] == k && prefix[..j][1..] == prefix[1..][..j - 1];
      assert (prefix + [last])[j] == (prefix[1..] + [last])[j - 1];
      assert Descend(DropAt(c, prefix, last).0, k) == d;
      assert Descend(c, k) == Child(c, k);
      DropFrameLevel(Child(c, k), prefix[1..], last, j - 1, k');
    }
  }

  /** `drop` keeps the order of every level above the last key's: each entry whose key is not
      the path's next key stays at its position with its value. */
  lemma {:induction false} DropOrderLevel(c: Value, prefix: seq<Key>, last: Key, j: nat)
    requires j < |prefix| && DropAt(c, prefix, last).1
    ensures Reached(c, prefix[..j]).Arr? && Reached(DropAt(c, prefix, last).0, prefix[..j]).Arr?
    ensures var a, b := Reached(DropAt(c, prefix, last).0, prefix[..j]), Reached(c, prefix[..j]);
      forall i :: 0 <= i < |b.entries| && b.entries[i].key != prefix[j] ==>
        i < |a.entries| && a.entries[i] == b.entries[i]
    decreases j
  {
    if j == 0 {
      assert prefix[..0] == [];
      AssignKeepsOrder(c, prefix[0], DropAt(Child(c, prefix[0]), prefix[1..], last).0);
    } else {
      var k := prefix[0];
      var d := DropAt(Child(c, k), prefix[1..], last).0;
      assert prefix[..j][0] == k && prefix[..j][1..] == prefix[1..][..j - 1];
      assert Descend(DropAt(c, prefix, last).0, k) == d;
      assert Descend(c, k) == Child(c, k);
      DropOrderLevel(Child(c, k), prefix[1..], last, j - 1);
    }
  }

  /** `drop` keeps a well-formed container well formed. */
  lemma {:induction false} DropWF(c: Value, prefix: seq<Key>, last: Key)
    requires WF(c)
    requires forall i :: 0 <= i < |prefix| ==> ValidKey(prefix[i])
    ensures WF(DropAt(c, prefix, last).0)
    decreases |prefix|
  {
    if prefix == [] {
      if IsSet(c, last) {
        RemoveWF(c, last);
      }
    } else if IsSet(c, prefix[0]) {
      var k := prefix[0];
      ChildWF(c, k);
      DropWF(Child(c, k), prefix[1..], last);
      AssignWF(c, k, DropAt(Child(c, k), prefix[1..], last).0);
    }
  }

  // ---------------------------------------------------------------------------
  // The reference cursor
  // ---------------------------------------------------------------------------

  /** Writing back through one more frame is one more assignment at the innermost level. */
  lemma {:induction false} PlugSnoc(frames: seq<Value>, ks: seq<Key>, f: Value, k: Key, x: Value)
    requires |frames| == |ks| && f.Arr?
    requires forall j :: 0 <= j < |frames| ==> frames[j].Arr?
    ensures Plug(frames + [f], ks + [k], x) == Plug(frames, ks, Assign(f, k, x))
    decreases |frames|
  {
    if frames == [] {
      assert frames + [f] == [f] && ks + [k] == [k];
    } else {
      assert (frames + [f])[1..] == frames[1..] + [f];
      assert (ks + [k])[1..] == ks[1..] + [k];
      PlugSnoc(frames[1..], ks[1..], f, k, x);
    }
  }

  /** The array the write cursor stands in when it moves under k: c itself when k is set,
      c with a new `[]` under k otherwise (`$array[$key] = []`). */
  function Enter(c: Value, k: Key): (f: Value)
    requires c.Arr?
    ensures f.Arr? && Child(f, k) == Descend(c, k)
  {
    if IsSet(c, k) then c else Assign(c, k, Empty)
  }

  /** The arrays the write cursor of set and push stands in on its way down ks, outermost
      first: at each level the current array after `$array[$key] = []` if needed. */
  function Frames(c: Value, ks: seq<Key>): (fs: seq<Value>)
    requires Walkable(c, ks)
    ensures |fs| == |ks|
    ensures forall j :: 0 <= j < |fs| ==> fs[j].Arr?
    decreases |ks|
  {
    if ks == [] then [] else [Enter(c, ks[0])] + Frames(Descend(c, ks[0]), ks[1..])
  }

  /** Where the write cursor stands once every key of ks is walked. */
  function Reached(c: Value, ks: seq<Key>): Value
    decreases |ks|
  {
    if ks == [] then c else Reached(Descend(c, ks[0]), ks[1..])
  }

  /** set is the walk down followed by writing v back through the frames. */
  lemma {:induction false} SetAtPlug(c: Value, ks: seq<Key>, v: Value)
    requires Walkable(c, ks)
    ensures SetAt(c, ks, v) == Plug(Frames(c, ks), ks, v)
    decreases |ks|
  {
    if ks != [] {
      var k := ks[0];
      var fs := Frames(c, ks);
      SetAtPlug(Descend(c, k), ks[1..], v);
      assert fs[0] == Enter(c, k) && fs[1..] == Frames(Descend(c, k), ks[1..]);
      if !IsSet(c, k) {
        AssignTwice(c, k, Empty, SetAt(Descend(c, k), ks[1..], v));
      }
    }
  }

  /** push is the walk down, the append at the reached value (a new `[]` when it is not an
      array), and writing the result back through the frames. */
  lemma {:induction false} PushAtPlug(c: Value, ks: seq<Key>, v: Value)
    requires Walkable(c, ks)
    ensures var end := Reached(c, ks);
      PushAt(c, ks, v) == Plug(Frames(c, ks), ks, Append(if end.Arr? then end else Empty, v))
    decreases |ks|
  {
    if ks != [] {
      var k := ks[0];
      var fs := Frames(c, ks);
      PushAtPlug(Descend(c, k), ks[1..], v);
      assert fs[0] == Enter(c, k) && fs[1..] == Frames(Descend(c, k), ks[1..]);
      if !IsSet(c, k) {
        AssignTwice(c, k, Empty, PushAt(Descend(c, k), ks[1..], v));
      }
    }
  }
}

=== FILE: php_arrays.dfy ===
/** PHP array values as the accessor sees them.

    A PHP array is an ordered table of key/value entries with unique keys, plus the
    hidden "next free integer key" that `$a[] = x` and `array_push` use. Arrays are
    values: assigning or passing one by value gives an independent copy.
 */
module PhpArrays {
  import opened PhpKeys

  datatype Option<T> = None | Some(value: T)

  /** A scalar that is neither null nor an array (strings are not part of this model). */
  datatype Atom = Bool(b: bool) | Int(i: int)

  /** A PHP value: null, a scalar leaf, or an array with its next free integer key. */
  datatype Value =
    | Null
    | Leaf(atom: Atom)
    | Arr(entries: seq<Entry>, nextFree: int)

  datatype Entry = Entry(key: Key, val: Value)

  /** The literal `[]`. */
  const Empty: Value := Arr([], 0)

  /** What a parameter typed `array` holds. */
  type Container = v: Value | v.Arr? witness Arr([], 0)

  // ---------------------------------------------------------------------------
  // Looking up an offset
  // ---------------------------------------------------------------------------

  /** Position of the first entry with key k, or |es| when there is none. */
  function Find(es: seq<Entry>, k: Key): (i: nat)
    ensures i <= |es|
    ensures i < |es| ==> es[i].key == k
    ensures forall j :: 0 <= j < i ==> es[j].key != k
  {
    if es == [] then 0
    else if es[0].key == k then 0
    else 1 + Find(es[1..], k)
  }

  /** Whether array v has an entry for k (whatever its value, null included). */
  predicate Present(v: Value, k: Key) {
    v.Arr? && Find(v.entries, k) < |v.entries|
  }

  /** `$v[$k]` read as `isset` sees it: the entry's value, null when there is none. */
  function Child(v: Value, k: Key): (x: Value)
    ensures x != Null ==> Present(v, k)
  {
    if Present(v, k) then v.entries[Find(v.entries, k)].val else Null
  }

  /** `isset($v[$k])`: an entry exists and its value is not null. */
  predicate IsSet(v: Value, k: Key): (b: bool)
    ensures b ==> v.Arr? && Present(v, k)
  {
    Child(v, k) != Null
  }

  // ---------------------------------------------------------------------------
  // Writing an offset
  // ---------------------------------------------------------------------------

  /** The next free integer key after key n has been used; it stops at PHP_INT_MAX. */
  function NextAfter(n: int): int {
    if n < IntMax then n + 1 else IntMax
  }

  /** `$v[$k] = $x`: an existing entry keeps its place, a new one goes last. */
  function Assign(v: Value, k: Key, x: Value): (r: Value)
    requires v.Arr?
    ensures r.Arr?
    ensures Present(r, k) && Child(r, k) == x
    ensures forall k' :: k' != k ==> Present(r, k') == Present(v, k') && Child(r, k') == Child(v, k')
    ensures |r.entries| == if Present(v, k) then |v.entries| else |v.entries| + 1
  {
    var i := Find(v.entries, k);
    if i < |v.entries| then
      FindAfterUpdate(v.entries, k, x);
      Arr(v.entries[i := Entry(k, x)], v.nextFree)
    else
      FindAfterSnoc(v.entries, Entry(k, x));
      Arr(v.entries + [Entry(k, x)],
          if k.IntKey? && k.n >= v.nextFree then NextAfter(k.n) else v.nextFree)
  }

  /** `unset($v[$k])`: drops the entry, keeps the order of the others and the next free key. */
  function Remove(v: Value, k: Key): (r: Value)
    requires v.Arr?
    ensures r.Arr? && r.nextFree == v.nextFree
    ensures forall k' :: k' != k ==> Present(r, k') == Present(v, k') && Child(r, k') == Child(v, k')
    ensures UniqueKeys(v.entries) ==> !Present(r, k)
    ensures |r.entries| == if Present(v, k) then |v.entries| - 1 else |v.entries|
  {
    var i := Find(v.entries, k);
    if i < |v.entries| then
      var r := Arr(v.entries[..i] + v.entries[i + 1..], v.nextFree);
      RemoveAtFind(v.entries, i);
      r
    else v
  }

  /** `array_push($v, $x)`: a new entry under the next free integer key; when that key is
      already taken (only once PHP_INT_MAX has been used) PHP refuses and v is unchanged. */
  function Append(v: Value, x: Value): (r: Value)
    requires v.Arr?
    ensures r.Arr?
  {
    var k := IntKey(v.nextFree);
    if Present(v, k) then v
    else
      FindAfterSnoc(v.entries, Entry(k, x));
      Arr(v.entries + [Entry(k, x)], NextAfter(v.nextFree))
  }

  /** `array_pop` as a query: the value of the last entry, null for a non-array or `[]`. */
  function LastOf(v: Value): (x: Value)
    ensures x != Null ==> v.Arr? && |v.entries| > 0 && x == v.entries[|v.entries| - 1].val
  {
    if v.Arr? && |v.entries| > 0 then v.entries[|v.entries| - 1].val else Null
  }

  // ---------------------------------------------------------------------------
  // Well-formed arrays
  // ---------------------------------------------------------------------------

  predicate UniqueKeys(es: seq<Entry>) {
    forall i, j :: 0 <= i < j < |es| ==> es[i].key != es[j].key
  }

  /** An integer key lies below the next free key, unless that has stopped at PHP_INT_MAX. */
  predicate BelowNext(k: Key, nextFree: int) {
    k.IntKey? ==> k.n < nextFree || nextFree == IntMax
  }

  /** The shape every PHP array has, at every level: unique normalised keys, all of them
      below the next free integer key, which lies in 0..PHP_INT_MAX. */
  ghost predicate WF(v: Value)
    decreases v
  {
    match v
    case Arr(es, nf) =>
      && 0 <= nf <= IntMax
      && UniqueKeys(es)
      && (forall i :: 0 <= i < |es| ==> ValidKey(es[i].key) && BelowNext(es[i].key, nf))
      && (forall i :: 0 <= i < |es| ==> WF(es[i].val))
    case _ => true
  }

  // ---------------------------------------------------------------------------
  // Lemmas
  // ---------------------------------------------------------------------------

  /** Find's contract pins its result down. */
  lemma FindIs(es: seq<Entry>, k: Key, i: nat)
    requires i <= |es|
    requires i < |es| ==> es[i].key == k
    requires forall j :: 0 <= j < i ==> es[j].key != k
    ensures Find(es, k) == i
  {
  }

  /** Overwriting the first entry of k in place moves no key's first entry. */
  lemma FindAfterUpdate(es: seq<Entry>, k: Key, x: Value)
    requires Find(es, k) < |es|
    ensures var r := es[Find(es, k) := Entry(k, x)];
      forall k' :: Find(r, k') == Find(es, k')
  {
    var i := Find(es, k);
    var r := es[i := Entry(k, x)];
    forall k' ensures Find(r, k') == Find(es, k') {
      FindIs(r, k', Find(es, k'));
    }
  }

  /** An entry added last is found only by keys that had no entry. */
  lemma FindAfterSnoc(es: seq<Entry>, e: Entry)
    ensures forall k' ::
      Find(es + [e], k') == (if Find(es, k') < |es| then Find(es, k') else if e.key == k' then |es| else |es| + 1)
  {
    var r := es + [e];
    forall k' ensures Find(r, k') ==
      if Find(es, k') < |es| then Find(es, k')
      else if e.key == k' then |es| else |es| + 1
    {
      var f := Find(es, k');
      if f < |es| {
        FindIs(r, k', f);
      } else if e.key == k' {
        FindIs(r, k', |es|);
      } else {
        FindIs(r, k', |es| + 1);
      }
    }
  }

  /** Removing the first entry with a key leaves every other key's first entry in place. */
  lemma RemoveAtFind(es: seq<Entry>, i: nat)
    requires i < |es| && i == Find(es, es[i].key)
    ensures var r := es[..i] + es[i + 1..];
      forall k' :: k' != es[i].key ==>
        (Find(r, k') < |r| <==> Find(es, k') < |es|) &&
        (Find(es, k') < |es| ==> r[Find(r, k')] == es[Find(es, k')])
    ensures (forall j :: i < j < |es| ==> es[j].key != es[i].key) ==>
      var r := es[..i] + es[i + 1..]; Find(r, es[i].key) == |r|
  {
    var r := es[..i] + es[i + 1..];
    forall k' | k' != es[i].key
      ensures (Find(r, k') < |r| <==> Find(es, k') < |es|)
      ensures Find(es, k') < |es| ==> r[Find(r, k')] == es[Find(es, k')]
    {
      var f := Find(es, k');
      if f < i {
        assert r[f] == es[f];
        assert forall j :: 0 <= j < f ==> r[j] == es[j];
      } else {
        assert forall j :: 0 <= j < i ==> r[j] == es[j];
        assert forall j :: i <= j < |r| ==> r[j] == es[j + 1];
        if f < |es| {
          assert f > i;
          assert r[f - 1] == es[f];
        }
      }
    }
    if forall j :: i < j < |es| ==> es[j].key != es[i].key {
      assert forall j :: 0 <= j < i ==> r[j] == es[j];
      assert forall j :: i <= j < |r| ==> r[j] == es[j + 1];
      FindIs(r, es[i].key, |r|);
    }
  }

  /** `$v[$k] = $x` keeps the order of the entries: an existing entry is replaced where it
      stands, a new one goes after all the others. */
  lemma AssignKeepsOrder(v: Value, k: Key, x: Value)
    requires v.Arr?
    ensures var r := Assign(v, k, x);
      && (Present(v, k) ==>
            && |r.entries| == |v.entries|
            && r.entries[Find(v.entries, k)] == Entry(k, x)
            && forall i :: 0 <= i < |v.entries| && i != Find(v.entries, k) ==> r.entries[i] == v.entries[i])
      && (!Present(v, k) ==> r.entries == v.entries + [Entry(k, x)])
  {
  }

  /** `unset($v[$k])` keeps the order of the remaining entries. */
  lemma RemoveKeepsOrder(v: Value, k: Key)
    requires v.Arr? && Present(v, k)
    ensures var r, f := Remove(v, k), Find(v.entries, k);
      forall i :: 0 <= i < |r.entries| ==> r.entries[i] == v.entries[if i < f then i else i + 1]
  {
  }

  /** In an array with unique keys, `$v[$k]` is the value of whichever entry has key k,
      and null when no entry has it. */
  lemma ChildOfEntry(v: Value, k: Key)
    requires v.Arr? && UniqueKeys(v.entries)
    ensures forall i :: 0 <= i < |v.entries| && v.entries[i].key == k ==> Child(v, k) == v.entries[i].val
    ensures (forall i :: 0 <= i < |v.entries| ==> v.entries[i].key != k) ==> !Present(v, k) && Child(v, k) == Null
  {
  }

  /** Writing the same offset twice keeps only the second write. */
  lemma AssignTwice(v: Value, k: Key, x: Value, y: Value)
    requires v.Arr?
    ensures Assign(Assign(v, k, x), k, y) == Assign(v, k, y)
  {
    var es := v.entries;
    var i := Find(es, k);
    var a := Assign(v, k, x);
    if i < |es| {
      FindAfterUpdate(es, k, x);
      assert a.entries == es[i := Entry(k, x)];
      assert Find(a.entries, k) == i;
      assert a.entries[i := Entry(k, y)] == es[i := Entry(k, y)];
    } else {
      FindAfterSnoc(es, Entry(k, x));
      assert a.entries == es + [Entry(k, x)];
      assert Find(a.entries, k) == i;
      assert a.entries[i := Entry(k, y)] == es + [Entry(k, y)];
    }
  }

  /** Writing back the value an offset already holds changes nothing. */
  lemma AssignSame(v: Value, k: Key)
    requires Present(v, k)
    ensures Assign(v, k, Child(v, k)) == v
  {
    var i := Find(v.entries, k);
    assert v.entries[i := Entry(k, Child(v, k))] == v.entries;
  }

  lemma ChildWF(v: Value, k: Key)
    requires WF(v)
    ensures WF(Child(v, k))
  {
  }

  /** Writing a well-formed value under a valid key keeps an array well formed. */
  lemma AssignWF(v: Value, k: Key, x: Value)
    requires v.Arr? && WF(v) && WF(x) && ValidKey(k)
    ensures WF(Assign(v, k, x))
  {
    var es := v.entries;
    var i := Find(es, k);
    var r := Assign(v, k, x);
    if i < |es| {
      assert forall j :: 0 <= j < |es| ==> r.entries[j].key == es[j].key;
    } else {
      assert forall j :: 0 <= j < |es| ==> r.entries[j] == es[j];
    }
  }

  /** Unsetting an offset keeps an array well formed. */
  lemma RemoveWF(v: Value, k: Key)
    requires v.Arr? && WF(v)
    ensures WF(Remove(v, k))
  {
    var es := v.entries;
    var i := Find(es, k);
    if i < |es| {
      var r := es[..i] + es[i + 1..];
      assert forall j :: 0 <= j < i ==> r[j] == es[j];
      assert forall j :: i <= j < |r| ==> r[j] == es[j + 1];
      assert UniqueKeys(r) by {
        forall a, b | 0 <= a < b < |r|
          ensures r[a].key != r[b].key
        {
          var a', b' := if a < i then a else a + 1, if b < i then b else b + 1;
          assert r[a] == es[a'] && r[b] == es[b'] && a' < b';
        }
      }
    }
  }

  /** Below PHP_INT_MAX the next free key of a well-formed array is indeed free. */
  lemma NextFreeIsFree(v: Value)
    requires v.Arr? && WF(v) && v.nextFree < IntMax
    ensures !Present(v, IntKey(v.nextFree))
  {
    var i := Find(v.entries, IntKey(v.nextFree));
    assert forall j :: 0 <= j < |v.entries| ==> BelowNext(v.entries[j].key, v.nextFree);
  }

  /** A successful push adds exactly one entry, last, under the old next free key; a
      refused one changes nothing. */
  lemma AppendAddsLast(v: Value, x: Value)
    requires v.Arr?
    ensures var r := Append(v, x);
      if Present(v, IntKey(v.nextFree)) then r == v
      else
        && |r.entries| == |v.entries| + 1
        && r.entries[..|v.entries|] == v.entries
        && r.entries[|v.entries|] == Entry(IntKey(v.nextFree), x)
        && r.nextFree == NextAfter(v.nextFree)
        && LastOf(r) == x
        && Child(r, IntKey(v.nextFree)) == x
  {
    var k := IntKey(v.nextFree);
    if !Present(v, k) {
      var es := v.entries + [Entry(k, x)];
      assert es[..|v.entries|] == v.entries;
      FindAfterSnoc(v.entries, Entry(k, x));
    }
  }

  /** Pushing keeps an array well formed. */
  lemma AppendWF(v: Value, x: Value)
    requires v.Arr? && WF(v) && WF(x)
    ensures WF(Append(v, x))
  {
    var k := IntKey(v.nextFree);
    if !Present(v, k) {
      var es := v.entries + [Entry(k, x)];
      assert forall j :: 0 <= j < |v.entries| ==> es[j] == v.entries[j];
      assert forall j :: 0 <= j < |v.entries| ==> v.entries[j].key != k;
    }
  }
}

=== FILE: php_keys.dfy ===
/** Dot paths and the PHP array keys their segments turn into.

    A path is cut on every '.' (PHP's `explode('.', $key)`), and each segment is then
    used as an array offset, where PHP reads a string that spells a 64-bit integer in
    canonical decimal as that integer.
 */
module PhpKeys {

  /** PHP_INT_MAX and PHP_INT_MIN of a 64-bit build: the range of integer array keys. */
  const IntMax: int := 0x7FFF_FFFF_FFFF_FFFF
  const IntMin: int := -0x8000_0000_0000_0000

  /** A key of a PHP array: an integer, or a string that does not spell one. */
  datatype Key = IntKey(n: int) | StrKey(s: string)

  // ---------------------------------------------------------------------------
  // Splitting a path
  // ---------------------------------------------------------------------------

  /** `explode('.', s)`: the pieces between dots, empty pieces kept. */
  function Explode(s: string): (segs: seq<string>)
    ensures |segs| >= 1
    ensures forall i :: 0 <= i < |segs| ==> '.' !in segs[i]
  {
    if s == [] then [""]
    else
      var rest := Explode(s[1..]);
      if s[0] == '.' then [""] + rest
      else [[s[0]] + rest[0]] + rest[1..]
  }

  /** `implode('.', segs)`: the segments joined by dots. */
  function Implode(segs: seq<string>): string
    requires |segs| >= 1
  {
    if |segs| == 1 then segs[0] else segs[0] + "." + Implode(segs[1..])
  }

  /** Splitting loses nothing: joining the segments gives the path back. */
  lemma {:induction false} ImplodeExplode(s: string)
    ensures Implode(Explode(s)) == s
  {
    if s != [] {
      var rest := Explode(s[1..]);
      ImplodeExplode(s[1..]);
      if s[0] == '.' {
        assert Explode(s) == [""] + rest;
        assert ([""] + rest)[1..] == rest;
      } else if |rest| == 1 {
        assert Explode(s) == [[s[0]] + rest[0]];
      } else {
        assert Explode(s) == [[s[0]] + rest[0]] + rest[1..];
        assert ([[s[0]] + rest[0]] + rest[1..])[1..] == rest[1..];
        assert Implode(rest) == rest[0] + "." + Implode(rest[1..]);
      }
    }
  }

  /** There is one segment more than there are dots. */
  lemma {:induction false} ExplodeCount(s: string)
    ensures |Explode(s)| == multiset(s)['.'] + 1
  {
    if s != [] {
      ExplodeCount(s[1..]);
      assert s == [s[0]] + s[1..];
      assert multiset(s) == multiset([s[0]]) + multiset(s[1..]);
    }
  }

  /** A dot-free string is a single segment. */
  lemma {:induction false} ExplodeDotFree(a: string)
    requires '.' !in a
    ensures Explode(a) == [a]
  {
    if a != [] {
      ExplodeDotFree(a[1..]);
      assert [a[0]] + a[1..] == a;
    }
  }

  /** A dot-free piece followed by a dot is the first segment, and the rest splits on its own. */
  lemma {:induction false} ExplodeCons(a: string, t: string)
    requires '.' !in a
    ensures Explode(a + "." + t) == [a] + Explode(t)
  {
    if a == [] {
      assert a + "." + t == "." + t;
      assert ("." + t)[1..] == t;
    } else {
      ExplodeCons(a[1..], t);
      var s := a + "." + t;
      assert s[0] == a[0];
      assert s[1..] == a[1..] + "." + t;
      assert [a[0]] + a[1..] == a;
    }
  }

  /** Joining dot-free segments and splitting again gives the same segments. */
  lemma {:induction false} ExplodeImplode(segs: seq<string>)
    requires |segs| >= 1
    requires forall i :: 0 <= i < |segs| ==> '.' !in segs[i]
    ensures Explode(Implode(segs)) == segs
  {
    if |segs| == 1 {
      ExplodeDotFree(segs[0]);
    } else {
      ExplodeImplode(segs[1..]);
      ExplodeCons(segs[0], Implode(segs[1..]));
      assert [segs[0]] + segs[1..] == segs;
    }
  }

  // ---------------------------------------------------------------------------
  // Integer keys written as text
  // ---------------------------------------------------------------------------

  predicate IsDigit(ch: char) { '0' <= ch <= '9' }

  predicate AllDigits(s: string) { forall i :: 0 <= i < |s| ==> IsDigit(s[i]) }

  /** A decimal numeral without a redundant leading zero: "0", "7", "42"; not "", "07". */
  predicate IsCanonicalNat(s: string) {
    |s| >= 1 && AllDigits(s) && (s[0] == '0' ==> |s| == 1)
  }

  /** The number a string of decimal digits spells. */
  function DigitsValue(s: string): nat
    requires AllDigits(s)
  {
    if s == [] then 0
    else 10 * DigitsValue(s[..|s| - 1]) + (s[|s| - 1] as int - '0' as int)
  }

  /** A string PHP may read as an integer offset: a canonical numeral, or '-' and a non-zero one. */
  predicate IsIntegerText(s: string) {
    || IsCanonicalNat(s)
    || (|s| >= 2 && s[0] == '-' && s[1] != '0' && IsCanonicalNat(s[1..]))
  }

  function IntegerValue(s: string): int
    requires IsIntegerText(s)
  {
    if s[0] == '-' then -(DigitsValue(s[1..]) as int) else DigitsValue(s)
  }

  /** Whether `$array[$s]` uses an integer key for the string s. */
  predicate IsNumericKey(s: string) {
    IsIntegerText(s) && IntMin <= IntegerValue(s) <= IntMax
  }

  /** The keys an array can hold after PHP's normalisation. */
  predicate ValidKey(k: Key) {
    match k
    case IntKey(n) => IntMin <= n <= IntMax
    case StrKey(s) => !IsNumericKey(s)
  }

  /** The key that a path segment addresses. */
  function KeyOf(s: string): (k: Key)
    ensures ValidKey(k)
    ensures k.StrKey? <==> !IsNumericKey(s)
  {
    if IsNumericKey(s) then IntKey(IntegerValue(s)) else StrKey(s)
  }

  function Digit(d: nat): char
    requires d < 10
  {
    ('0' as int + d) as char
  }

  /** Decimal text of a natural number. */
  function NatText(n: nat): (s: string)
    ensures IsCanonicalNat(s) && DigitsValue(s) == n
  {
    if n < 10 then [Digit(n)]
    else
      var s := NatText(n / 10) + [Digit(n % 10)];
      assert s[..|s| - 1] == NatText(n / 10);
      s
  }

  /** Decimal text of an integer, with a '-' when negative. */
  function IntText(i: int): string {
    if i < 0 then "-" + NatText(-i) else NatText(i)
  }

  /** The path segment that addresses a key. */
  function KeyText(k: Key): string {
    match k
    case IntKey(n) => IntText(n)
    case StrKey(s) => s
  }

  /** A canonical numeral that is not "0" spells a positive number. */
  lemma {:induction false} CanonicalPositive(s: string)
    requires IsCanonicalNat(s) && s[0] != '0'
    ensures DigitsValue(s) >= 1
  {
    if |s| > 1 {
      var p := s[..|s| - 1];
      assert p[0] == s[0];
      CanonicalPositive(p);
    }
  }

  /** A canonical numeral is the decimal text of the number it spells. */
  lemma {:induction false} NatTextOfCanonical(s: string)
    requires IsCanonicalNat(s)
    ensures NatText(DigitsValue(s)) == s
  {
    var n := DigitsValue(s);
    if |s| == 1 {
      assert s[..0] == [] && DigitsValue(s[..0]) == 0;
      assert n == 10 * DigitsValue(s[..0]) + (s[0] as int - '0' as int);
      assert NatText(n) == [Digit(n)];
    } else {
      var p := s[..|s| - 1];
      assert p[0] == s[0];
      CanonicalPositive(p);
      NatTextOfCanonical(p);
      assert n / 10 == DigitsValue(p) && n % 10 == s[|s| - 1] as int - '0' as int;
      assert p + [s[|s| - 1]] == s;
    }
  }

  /** Every key is reached by its own text: printing then normalising is the identity. */
  lemma KeyTextRoundTrip(k: Key)
    requires ValidKey(k)
    ensures KeyOf(KeyText(k)) == k
  {
    if k.IntKey? {
      var n := k.n;
      if n < 0 {
        var t := NatText(-n);
        var s := "-" + t;
        assert s[1..] == t;
        assert t[0] != '0' by {
          assert |t| == 1 ==> DigitsValue(t) == t[0] as int - '0' as int;
        }
        assert IsIntegerText(s);
      } else {
        assert IsIntegerText(NatText(n));
      }
    }
  }

  /** Normalising a segment and printing the key gives the segment back. */
  lemma KeyOfRoundTrip(s: string)
    ensures KeyText(KeyOf(s)) == s
  {
    if IsNumericKey(s) {
      if s[0] == '-' {
        CanonicalPositive(s[1..]);
        NatTextOfCanonical(s[1..]);
        assert "-" + s[1..] == s;
      } else {
        NatTextOfCanonical(s);
      }
    }
  }

  /** Two different segments never address the same key. */
  lemma KeyOfInjective(s: string, t: string)
    requires s != t
    ensures KeyOf(s) != KeyOf(t)
  {
    KeyOfRoundTrip(s);
    KeyOfRoundTrip(t);
  }

  // ---------------------------------------------------------------------------
  // Paths
  // ---------------------------------------------------------------------------

  /** The keys a dot path addresses, outermost first. */
  function PathKeys(path: string): (ks: seq<Key>)
    ensures |ks| == |Explode(path)| >= 1
    ensures forall i :: 0 <= i < |ks| ==> ks[i] == KeyOf(Explode(path)[i])
    ensures forall i :: 0 <= i < |ks| ==> ValidKey(ks[i])
  {
    var segs := Explode(path);
    seq(|segs|, i requires 0 <= i < |segs| => KeyOf(segs[i]))
  }

  /** Different paths address different key sequences. */
  lemma PathKeysInjective(p: string, q: string)
    requires PathKeys(p) == PathKeys(q)
    ensures p == q
  {
    var sp, sq := Explode(p), Explode(q);
    forall i | 0 <= i < |sp|
      ensures sp[i] == sq[i]
    {
      if sp[i] != sq[i] {
        KeyOfInjective(sp[i], sq[i]);
      }
    }
    assert sp == sq;
    ImplodeExplode(p);
    ImplodeExplode(q);
  }
}
